=== FILE: README.md ===
# SOCKS5 proxy: handshake and relay-pair lifecycle

This project models a minimal single-threaded SOCKS5 proxy written in C on
top of the libev reactor (`src/socks5/socks5.c`). Three modules cover the
part of the proxy that decides what goes over the wire and which descriptors
and watcher records stay alive:

- `Wire` (wire.dfy) holds the RFC 1928 constants the proxy uses. It defines
  the three replies it sends: the method reply, the 4-byte error reply and
  the 10-byte success reply. It also defines `CString`, the view a C string
  function has of a byte buffer.
- `Handshake` (handshake.dfy) models `socks5_auth`:
  - `Negotiate` and its stages (`Request`, `Ipv4Destination`,
    `DomainDestination`, `Dial`) are the specification. They map the
    client's byte stream and the environment to a `Trace`, which records:
    - every reply sent, and how many bytes were consumed;
    - the name handed to the resolver;
    - the value `socket` returned and the endpoint handed to `connect`;
    - the descriptors closed, and whether an upstream descriptor comes back.
  - `Auth` is the procedure itself, with one correction. It reads the
    DOMAINNAME length byte as unsigned (see "## Findings"). It runs over a
    fixed-size buffer that each `recv`, `memcpy` and reply overwrites in
    place, and it is proved to produce exactly `Negotiate`'s trace.
- `Relay` (relay.dfy) models `accept_cb` and `read_cb`:
  - `Watcher` is a heap `ev_io` record with its `fd` and `data` pointer.
  - `Reactor` holds the set of started watchers, the set of open
    descriptors, the set of records that are allocated, and the log of relay
    `send`s.
  - The invariant `Reactor.Valid` says:
    - a started watcher's partner is started too, and the two point at each
      other;
    - every started watcher owns an open descriptor;
    - no two started watchers share a descriptor.
  - `Reactor.NoLeak` says every allocated record is a started watcher.
    `AcceptCb` and `ReadCb` keep it, together with `Valid`.
  - `AcceptCb` either registers a fresh linked pair or leaves no record
    behind.
  - `ReadCb` either forwards exactly the bytes read to the partner, or
    tears the pair down once, or does nothing.

The client stream, the resolver, `socket`, `connect` and `getpeername` are
inputs. A `recv` of n bytes takes the next n bytes of the stream, or fails
when fewer remain.

## Model

| member | source | states |
|---|---|---|
| Handshake.Negotiate | src/socks5/socks5.c:277-388 | At most two replies, and the first is always [5, 0]. A wrong version, or a failed first `recv` (the stream ends before 2 bytes), gets no reply. A socket is created only after a version-5 CONNECT request with an IPv4 or DOMAINNAME address whose destination, port included, was read in full: exactly 10 request bytes for IPv4, 7 plus the name length for DOMAINNAME. Without a socket nothing is dialled or closed. The only descriptor created or closed is the one `socket` returned. Success returns it open after a 10-byte reply with nothing closed. On failure every later reply is 4 bytes and a nonzero upstream descriptor is closed exactly once. |
| Handshake.ErrExit | src/socks5/socks5.c:385-387 | Leaving through the error label always fails. Nothing is closed before `socket` was called; afterwards `remote` is closed iff it is nonzero. |
| Handshake.Request | src/socks5/socks5.c:297-358 | The request stage keeps the method reply [5, 0] first and consumes only bytes from its offset up to the end of the stream. A socket is created only for a version-5 CONNECT with ATYP 1 or 3, and only after exactly 10 request bytes (IPv4) or 7 plus the name length (DOMAINNAME) were consumed. |
| Handshake.Ipv4Destination | src/socks5/socks5.c:315-326 | The IPv4 destination reads no name and stays within the stream. An endpoint is found iff all 6 address and port bytes were read. |
| Handshake.DomainDestination | src/socks5/socks5.c:327-348 | The DOMAINNAME destination stays within the stream. When an endpoint is found, a name was handed to the resolver and exactly 3 plus the announced name length bytes were read: the length byte, the name and the port. |
| Handshake.Dial | src/socks5/socks5.c:360-387 | The socket is always created; connect is attempted iff it is non-negative. Success returns it open after exactly one 10-byte reply. Failure closes it iff it is nonzero, and adds either nothing or exactly the refusal [5, 5, 0, 1] to the replies. |
| Handshake.Auth | src/socks5/socks5.c:277-388 | The in-place buffer procedure yields exactly the trace Negotiate specifies, for every stream and environment. |
| Handshake.AuthRequest | src/socks5/socks5.c:297-358 | The request stage over the buffer equals the specification stage `Request` from the same offset. |
| Handshake.Reject | src/socks5/socks5.c:306-311 | Overwriting VER, REP and RSV keeps the client's ATYP byte, and the four bytes sent are ErrorReply(rep, ATYP as received). |
| Handshake.RecvIpv4 | src/socks5/socks5.c:315-326 | The IPv4 branch equals `Ipv4Destination`: the address is the next 4 bytes and the port the 2 after, verbatim; a short read yields no destination. |
| Handshake.RecvName | src/socks5/socks5.c:334-338 | The name is read in front of the NUL stored at the length index, and the resolver is handed CString of exactly the announced name bytes; the read fails iff fewer bytes remain than announced. |
| Handshake.RecvDomain | src/socks5/socks5.c:327-348 | The DOMAINNAME branch equals `DomainDestination`: a failed lookup, a non-AF_INET answer or an empty list stops before the port is read; otherwise the endpoint is the first address and the next 2 bytes. |
| Handshake.Connect | src/socks5/socks5.c:360-387 | The upstream stage over the buffer equals `Dial`, including the 10-byte success reply assembled by three `memcpy`s. |
| Handshake.WrongVersionSilent | src/socks5/socks5.c:288-289 | A method header whose version is not 5 consumes two bytes and gets no reply and no socket. |
| Handshake.MethodNegotiation | src/socks5/socks5.c:288-295 | With version 5, exactly `nmethods` bytes are skipped, the reply is [5, 0] whatever was offered, and the request is parsed right after the methods. |
| Handshake.RequestReadsSuffix | src/socks5/socks5.c:297-358 | The request stage depends only on the stream from its offset on. |
| Handshake.MethodsNotInspected | src/socks5/socks5.c:290-295 | Two streams that differ only in the offered method list give the same trace. |
| Handshake.UnsupportedCommand | src/socks5/socks5.c:298-313 | A request header with a version other than 5 or a command other than CONNECT gets [5, 7, 0, ATYP as received]. It consumes 4 request bytes, and no socket is created. |
| Handshake.UnsupportedAddressType | src/socks5/socks5.c:349-358 | A CONNECT with an ATYP other than 1 or 3 gets [5, 8, 0, ATYP as received] and no socket is created. |
| Handshake.Ipv4Request | src/socks5/socks5.c:315-326 | An IPv4 CONNECT dials the endpoint formed by the next 4 and 2 bytes, having consumed 10 request bytes. |
| Handshake.DomainRequest | src/socks5/socks5.c:327-348 | A NUL-free name reaches the resolver whole. The first IPv4 address of the answer and the 2 following bytes form the endpoint dialled. |
| Handshake.DomainUnresolved | src/socks5/socks5.c:338-343 | A failed or unusable lookup ends the handshake with only the method reply sent. No socket is created and the port is left unread. |
| Handshake.SignedLength | src/socks5/socks5.c:335 | The length byte read through a signed `char` agrees with the byte below 128 and is negative from 128 on. |
| Handshake.SignedLengthEscapesBuffer | src/socks5/socks5.c:335-337 | For a length byte of 128 or more, the signed index of the terminator store falls outside the buffer. The unsigned one is inside. |
| Handshake.SocketFailure | src/socks5/socks5.c:360 | A negative `socket` result leads to `close` of that value at the error label, with nothing sent and nothing dialled. |
| Handshake.ConnectRefused | src/socks5/socks5.c:363-372 | A refused connect sends only the first 4 bytes [5, 5, 0, 1] and closes the upstream descriptor once. |
| Handshake.PeerUnknown | src/socks5/socks5.c:374-375 | A failed `getpeername` closes the upstream descriptor once, with no reply. |
| Handshake.DescriptorZeroKeptOpen | src/socks5/socks5.c:385-386 | When `socket` returned 0, the error label closes nothing, so descriptor 0 stays open on every failure path. |
| Handshake.ConnectSucceeded | src/socks5/socks5.c:374-383 | Success sends [5, 0, 0, 1] followed by the peer address and port, closes nothing, and returns the upstream descriptor. |
| Handshake.ConnectScenario | src/socks5/socks5.c:288-383 | The complete trace for an IPv4 CONNECT to a reachable host: [5, 0] then the 10-byte reply, 13 bytes consumed, the upstream descriptor returned, and the bytes after the request left unread. |
| Wire.SuccessReply | src/socks5/socks5.c:377-380 | The success reply is 10 bytes: [5, 0, 0, 1], then the 4 address bytes, then the 2 port bytes. |
| Wire.CString | src/socks5/socks5.c:338 | What the resolver reads is the NUL-free prefix of the buffer that ends at its first NUL or at its end. |
| Wire.CStringTerminated | src/socks5/socks5.c:336-338 | A NUL stored at index k makes the buffer read as a C string exactly like its first k bytes, whatever follows. |
| Wire.CStringWhole | src/socks5/socks5.c:337-338 | A name with no NUL byte reaches the resolver unchanged. |
| Relay.Reactor.AcceptCb | src/socks5/socks5.c:390-443 | A pair is registered iff there was no error event, both mallocs and accept succeeded, and the handshake returned an upstream. Then two fresh records, linked both ways, are started on the client and upstream descriptors. Otherwise no record is started or survives. After a failed handshake the client descriptor is closed and the open set changes exactly as the handshake's trace says. The invariant is kept, and so is the absence of leaked records: every allocated record is a started watcher. |
| Relay.Reactor.Admit | src/socks5/socks5.c:417-440 | Once both records are allocated: a pair is registered iff accept gave a descriptor and the handshake returned an upstream, with both records started, linked both ways, on the client and upstream descriptors. Otherwise both records are freed again. After a failed handshake the client descriptor is closed. Afterwards every allocated record is a started watcher. |
| Relay.Reactor.RunAuth | src/socks5/socks5.c:417-425 | The accepted descriptor opens, the handshake runs to Negotiate's trace, and a returned upstream descriptor is distinct from every registered one. |
| Relay.Reactor.Register | src/socks5/socks5.c:434-440 | Both records are started with their descriptors, each `data` points at the other, and the invariant is kept. |
| Relay.Reactor.Malloc | src/socks5/socks5.c:405-406 | A successful allocation yields a fresh record added to the allocated set; a failed one yields NULL and changes nothing. |
| Relay.Reactor.Free | src/socks5/socks5.c:411-412 | Freeing an allocated record that is not started removes it from the allocated set, so a record cannot be freed twice; NULL changes nothing. |
| Relay.Reactor.ReadCb | src/socks5/socks5.c:445-498 | On end of stream or ECONNRESET both watchers of the pair stop, both descriptors close and both records are freed, with nothing sent. On data, exactly the bytes read are sent to the partner's descriptor and nothing else changes. On an error event or another errno nothing changes. The invariant is kept, and every allocated record is still a started watcher. |
| Relay.Reactor.Teardown | src/socks5/socks5.c:479-490 | Both watchers leave the started set and both records are freed, so no later event reaches the pair. Both descriptors close, the invariant is kept, and every allocated record is still a started watcher. |
| Relay.Reactor.Forward | src/socks5/socks5.c:492-495 | One send of exactly the bytes read to the partner's descriptor; pairs, descriptors and records unchanged. |
| Relay.ReadOutcomes | src/socks5/socks5.c:450-495 | Teardown and forwarding never both apply, and neither applies exactly on an error event or a read error other than ECONNRESET. |
| Relay.DeliveredAppend | src/socks5/socks5.c:494 | A send appends its bytes to what its destination has received and adds nothing for any other descriptor. |
| Relay.ForwardingFidelity | src/socks5/socks5.c:494 | After a forward, the partner has received exactly its earlier bytes followed by the bytes read, and every other descriptor exactly what it had. |

## Left out

- `main`, option parsing, daemonising, signal handling and the listening-socket setup are not modelled; the constructor takes the already-open descriptors as a parameter.
- `socks5_sockset` (the 2-second send and receive timeouts) is not modelled: a timed-out `recv` is a failed `recv`, and a stream that simply stops short models it.
- libev and the system calls are not modelled as code. `accept`, `socket`, `connect`, `getpeername`, `gethostbyname`, `malloc` and the event flags are inputs, and `ev_io_start`/`ev_io_stop` are membership of the started set.
- Short reads are not modelled: a handshake `recv` of n bytes either returns all n or fails, and a `recv` that returns 0 during the handshake is treated as a failure.
- Handshake.Auth: only the `send` of the method reply has its result checked, as in the source. One flag per client says whether sends succeed, so a connection that accepts that send accepts every later one.
- Relay.Reactor.Forward: a partial or failed relay `send` is not modelled. The source ignores its result, so the model records the send as issued with all bytes.
- Logging (`PRINTF`) is left out; it has no effect on state.
- Handshake.RecvName: the DOMAINNAME length byte is read as unsigned, the correction in "## Findings". So for length bytes 128 to 255, Handshake.Negotiate, Handshake.Auth and Handshake.DomainRequest describe the intended behaviour. On a target where `char` is signed, the source instead stores the NUL before the buffer and hands `recv` a huge length; the model does not describe that.
- `socks5.h` and `defs.h` are not part of this model. The header bytes are read as unsigned, and the reply and address-type codes are the RFC 1928 values. `R_ERROR` is modelled as the `Failed` outcome, distinct from every descriptor `socket` can return.
- Relay.Reactor.AcceptCb requires that `accept` and `socket` return descriptors that are not already open. The kernel guarantees this, and the model takes it as an assumption about the environment.
- Lines 368-369 answer a refused upstream connect with REP 5 ("connection refused" in RFC 1928), not the 7 used for a rejected command; the model sends 5.
- Lines 458-476 and 479-490 tear the pair down only on errno 104 (ECONNRESET) and on end of stream; any other read error leaves the pair registered, and the model does the same.
- The name handed to the resolver is what `gethostbyname` reads as a C string, so it is cut at the first NUL inside the name. The model keeps this.
- The error label closes `remote` whenever it is nonzero, so it calls `close(-1)` after a failed `socket`. The model keeps this.

## Findings

| source | as written | input that shows it | evidently intended | confidence | as-written member | corrected member |
|---|---|---|---|---|---|---|
| src/socks5/socks5.c:335-337 | `ret = buff[0]` reads the DOMAINNAME length through a signed `char`. `buff[ret] = 0` and `recv(sockfd, buff, ret, 0)` then use it as an index and a size. | A DOMAINNAME request with length byte 200 (any name of 128 to 255 bytes) gives ret = -56. The terminator is stored before the buffer. | The length is the unsigned byte 0..255, so the terminator lands inside the 256-or-more-byte buffer. | not executed; depends on `char` being signed on the target (as on x86-64) | Handshake.SignedLengthEscapesBuffer | Handshake.RecvName |

=== FILE: handshake.dfy ===
/**
 * The handshake negotiator of `socks5_auth`: method negotiation, the CONNECT
 * request with an IPv4 or DOMAINNAME destination, the upstream connect, and
 * the reply bytes, all run to completion on one accepted client.
 *
 * Negotiate is the specification: what the server sends, consumes, closes
 * and returns for a given client byte stream and environment. Auth is the
 * step-by-step procedure over a fixed-size buffer, proved to agree with it.
 */
module Handshake {
  import opened Wire

  /** Address family of an IPv4 host entry. */
  const AF_INET := 2

  /** What the name resolver (`gethostbyname`) reports. */
  datatype Resolution =
    | Unresolved
    | Resolved(family: int, addrs: seq<Addr>)

  /** What `connect` and then `getpeername` on the upstream socket report. */
  datatype Connection =
    | Refused
    | Connected(peer: Option<Endpoint>)

  /**
   * Everything the handshake learns from outside the client's byte stream:
   * whether sends to the client succeed, the resolver, the descriptor that
   * `socket` returns (negative on failure), and the result of connecting.
   */
  datatype Env = Env(
    writable: bool,
    resolve: seq<byte> -> Resolution,
    socketFd: int,
    connect: Endpoint -> Connection)

  datatype Outcome = Upstream(fd: int) | Failed

  /**
   * The observable effect of one handshake: each `send` to the client in
   * order, how many client bytes `recv` consumed, the name handed to the
   * resolver, the value `socket` returned if it was called, the destination
   * handed to `connect`, the descriptors closed, and the result.
   */
  datatype Trace = Trace(
    replies: seq<seq<byte>>,
    consumed: nat,
    queried: Option<seq<byte>>,
    created: Option<int>,
    dialed: Option<Endpoint>,
    closed: seq<int>,
    outcome: Outcome)

  /**
   * Leaving through the error label: `remote` is 0 until `socket` is called
   * and is closed only when it is not 0.
   */
  function ErrExit(replies: seq<seq<byte>>, consumed: nat, queried: Option<seq<byte>>,
                   created: Option<int>, dialed: Option<Endpoint>): (t: Trace)
    ensures t.outcome == Failed
    ensures created.None? ==> t.closed == []
    ensures created.Some? ==> t.closed == if created.value != 0 then [created.value] else []
  {
    var remote := if created.Some? then created.value else 0;
    Trace(replies, consumed, queried, created, dialed, if remote != 0 then [remote] else [], Failed)
  }

  /** Descriptors the handshake leaves open / closes, as sets. */
  function Opened(t: Trace): (r: set<int>)
    ensures forall fd :: fd in r ==> fd >= 0 && t.created == Some(fd)
  {
    if t.created.Some? && t.created.value >= 0 then {t.created.value} else {}
  }

  function Closed(t: Trace): (r: set<int>)
  {
    set fd | fd in t.closed
  }

  /**
   * The whole handshake on the client byte stream `input`. A `recv` of n
   * bytes either takes the next n bytes of `input` or, when fewer remain,
   * fails.
   */
  function Negotiate(input: seq<byte>, env: Env): (t: Trace)
    ensures t.consumed <= |input|
    ensures |t.replies| <= 2
    ensures t.replies != [] ==> t.replies[0] == MethodReply()
    // the version byte gates everything: a wrong one gets no reply at all
    ensures (|input| < 2 || input[0] != VERSION) ==> t.replies == [] && t.outcome == Failed
    // a socket only after a supported CONNECT request and its whole destination
    ensures t.created.Some? ==>
              && |input| >= 2 && input[0] == VERSION && env.writable
              && var p := 2 + input[1] as int;
                 && p + 4 <= |input| && input[p] == VERSION && input[p + 1] == CMD_CONNECT
                 && (input[p + 3] == ATYP_IPV4 || input[p + 3] == ATYP_DOMAIN)
                 && (input[p + 3] == ATYP_IPV4 ==> t.consumed == p + 10)
                 && (input[p + 3] == ATYP_DOMAIN ==>
                       p + 4 < |input| && t.consumed == p + 7 + input[p + 4] as int)
    // and without a socket nothing is dialled or closed
    ensures t.created.None? ==> t.dialed.None? && t.closed == []
    ensures t.dialed.Some? ==> t.created.Some? && t.created.value >= 0
    // the only descriptor the handshake creates or closes is the one `socket` returned
    ensures t.created.Some? ==> t.created.value == env.socketFd
    ensures forall fd :: fd in t.closed ==> fd == env.socketFd
    // success: the upstream descriptor is returned open, after a 10-byte reply
    ensures t.outcome.Upstream? ==>
              && t.created == Some(env.socketFd) && t.outcome.fd == env.socketFd >= 0
              && t.closed == [] && t.dialed.Some?
              && |t.replies| == 2 && |t.replies[1]| == 10
    // failure: every reply after the method reply is 4 bytes, and the
    // upstream descriptor, once created and nonzero, is closed exactly once
    ensures t.outcome.Failed? ==> forall i :: 1 <= i < |t.replies| ==> |t.replies[i]| == 4
    ensures t.outcome.Failed? && t.created.Some? && t.created.value != 0 ==>
              t.closed == [t.created.value]
  {
    if |input| < 2 then ErrExit([], 0, None, None, None)
    else if input[0] != VERSION then ErrExit([], 2, None, None, None)
    else
      var p := 2 + input[1] as int;
      if |input| < p then ErrExit([], 2, None, None, None)
      else if !env.writable then ErrExit([], p, None, None, None)
      else Request(input, p, env)
  }

  /**
   * Where the destination parse left off: the endpoint to connect to (None
   * when a read or the lookup failed), the stream offset reached, and the
   * name handed to the resolver.
   */
  datatype Destination = Destination(dest: Option<Endpoint>, next: nat, queried: Option<seq<byte>>)

  /** The request stage, entered at offset `p` once the method reply went out. */
  function Request(input: seq<byte>, p: nat, env: Env): (t: Trace)
    requires p <= |input|
    ensures t.replies != [] && t.replies[0] == MethodReply()
    ensures p <= t.consumed <= |input|
    ensures t.created.Some? ==>
              && p + 4 <= |input| && input[p] == VERSION && input[p + 1] == CMD_CONNECT
              && (input[p + 3] == ATYP_IPV4 || input[p + 3] == ATYP_DOMAIN)
              && (input[p + 3] == ATYP_IPV4 ==> t.consumed == p + 10)
              && (input[p + 3] == ATYP_DOMAIN ==>
                    p + 4 < |input| && t.consumed == p + 7 + input[p + 4] as int)
  {
    var sent := [MethodReply()];
    if |input| < p + 4 then ErrExit(sent, p, None, None, None)
    else
      var ver, cmd, atyp := input[p], input[p + 1], input[p + 3];
      if ver != VERSION || cmd != CMD_CONNECT then
        ErrExit(sent + [ErrorReply(REP_CMD_NOT_SUPPORTED, atyp)], p + 4, None, None, None)
      else if atyp != ATYP_IPV4 && atyp != ATYP_DOMAIN then
        ErrExit(sent + [ErrorReply(REP_ADDR_NOT_SUPPORTED, atyp)], p + 4, None, None, None)
      else
        var d := if atyp == ATYP_IPV4 then Ipv4Destination(input, p + 4)
                 else DomainDestination(input, p + 4, env.resolve);
        if d.dest.None? then ErrExit(sent, d.next, d.queried, None, None)
        else Dial(sent, d.next, d.queried, d.dest.value, env)
  }

  /** IPv4: four address bytes, then two port bytes, both taken verbatim. */
  function Ipv4Destination(input: seq<byte>, p: nat): (d: Destination)
    requires p <= |input|
    ensures p <= d.next <= |input| && d.queried.None?
    ensures d.dest.Some? <==> d.next == p + 6
  {
    if |input| < p + 4 then Destination(None, p, None)
    else if |input| < p + 6 then Destination(None, p + 4, None)
    else Destination(Some(Endpoint(input[p..p + 4], input[p + 4..p + 6])), p + 6, None)
  }

  /**
   * DOMAINNAME: a length byte, that many name bytes (seen by the resolver as
   * a C string), the first IPv4 address of the answer, then two port bytes.
   */
  function DomainDestination(input: seq<byte>, p: nat, resolve: seq<byte> -> Resolution): (d: Destination)
    requires p <= |input|
    ensures p <= d.next <= |input|
    ensures d.dest.Some? ==> p < |input| && d.next == p + 3 + input[p] as int && d.queried.Some?
  {
    if |input| < p + 1 then Destination(None, p, None)
    else
      var q := p + 1 + input[p] as int;
      if |input| < q then Destination(None, p + 1, None)
      else
        var name := CString(input[p + 1..q]);
        match resolve(name)
        case Unresolved => Destination(None, q, Some(name))
        case Resolved(family, addrs) =>
          if family != AF_INET || addrs == [] || |input| < q + 2 then Destination(None, q, Some(name))
          else Destination(Some(Endpoint(addrs[0], input[q..q + 2])), q + 2, Some(name))
  }

  /** Creating the upstream socket, connecting it to `dest`, and replying. */
  function Dial(sent: seq<seq<byte>>, consumed: nat, queried: Option<seq<byte>>,
                dest: Endpoint, env: Env): (t: Trace)
    ensures t.consumed == consumed && t.queried == queried
    ensures t.created == Some(env.socketFd)
    ensures t.dialed.Some? <==> env.socketFd >= 0
    ensures t.replies == sent || (|t.replies| == |sent| + 1 && t.replies[..|sent|] == sent)
    ensures t.outcome.Upstream? ==>
              && env.socketFd >= 0 && t.outcome.fd == env.socketFd && t.closed == []
              && |t.replies| == |sent| + 1 && |t.replies[|sent|]| == 10
    ensures t.outcome.Failed? ==>
              && t.closed == (if env.socketFd != 0 then [env.socketFd] else [])
              && (t.replies == sent || t.replies == sent + [ErrorReply(REP_CONN_REFUSED, ATYP_IPV4)])
  {
    var remote := env.socketFd;
    if remote < 0 then ErrExit(sent, consumed, queried, Some(remote), None)
    else match env.connect(dest)
      case Refused =>
        ErrExit(sent + [ErrorReply(REP_CONN_REFUSED, ATYP_IPV4)], consumed, queried, Some(remote), Some(dest))
      case Connected(None) =>
        ErrExit(sent, consumed, queried, Some(remote), Some(dest))
      case Connected(Some(peer)) =>
        Trace(sent + [SuccessReply(peer)], consumed, queried, Some(remote), Some(dest), [], Upstream(remote))
  }

  /* ---------------------------------------------------------------------- */
  /* The procedure over the stack buffer                                     */
  /* ---------------------------------------------------------------------- */

  /**
   * `recv(sock, buff, n)` on a blocking socket: the next n bytes of the
   * stream land at the front of `buff`, or the call fails and nothing moves.
   */
  method Recv(input: seq<byte>, pos: nat, buff: array<byte>, n: nat) returns (ok: bool, next: nat)
    requires pos <= |input| && n <= buff.Length
    modifies buff
    ensures ok <==> pos + n <= |input|
    ensures next == if ok then pos + n else pos
    ensures next <= |input|
    ensures ok ==> buff[..n] == input[pos..pos + n]
    ensures buff[n..] == old(buff[n..])
    ensures !ok ==> buff[..] == old(buff[..])
  {
    ok := pos + n <= |input|;
    if ok {
      forall i | 0 <= i < n {
        buff[i] := input[pos + i];
      }
      next := pos + n;
    } else {
      next := pos;
    }
  }

  /** `send(sock, buff, n)`: the first n bytes go out as one message, if the client accepts writes. */
  method Send(sent: seq<seq<byte>>, writable: bool, buff: array<byte>, n: nat)
    returns (ok: bool, sent': seq<seq<byte>>)
    requires n <= buff.Length
    ensures ok == writable
    ensures sent' == if writable then sent + [buff[..n]] else sent
  {
    ok := writable;
    sent' := if writable then sent + [buff[..n]] else sent;
  }

  /** `memcpy(buff + at, bytes, |bytes|)`. */
  method Put(buff: array<byte>, at: nat, bytes: seq<byte>)
    requires at + |bytes| <= buff.Length
    modifies buff
    ensures buff[..at] == old(buff[..at])
    ensures buff[at..at + |bytes|] == bytes
    ensures buff[at + |bytes|..] == old(buff[at + |bytes|..])
  {
    forall i | 0 <= i < |bytes| {
      buff[at + i] := bytes[i];
    }
  }

  /**
   * `socks5_auth`: the handshake over a `bufferSize`-byte buffer that is
   * overwritten in place between calls. It performs exactly the effects
   * Negotiate describes.
   */
  method Auth(input: seq<byte>, env: Env, bufferSize: nat) returns (t: Trace)
    requires bufferSize >= 256
    ensures t == Negotiate(input, env)
  {
    var buff := new byte[bufferSize];
    var pos: nat := 0;
    var sent: seq<seq<byte>> := [];
    var ok: bool;

    // VERSION and METHODS
    ok, pos := Recv(input, pos, buff, 2);
    if !ok || buff[0] != VERSION {
      return ErrExit(sent, pos, None, None, None);
    }
    ok, pos := Recv(input, pos, buff, buff[1] as nat);
    if !ok {
      return ErrExit(sent, pos, None, None, None);
    }

    // no authentication, whatever was offered
    buff[0], buff[1] := VERSION, METHOD_NO_AUTH;
    assert buff[..2] == MethodReply();
    ok, sent := Send(sent, env.writable, buff, 2);
    if !ok {
      return ErrExit(sent, pos, None, None, None);
    }
    t := AuthRequest(input, pos, buff, env);
  }

  /** The REQUEST part of `socks5_auth`, from offset `pos` on. */
  method AuthRequest(input: seq<byte>, pos: nat, buff: array<byte>, env: Env) returns (t: Trace)
    requires pos <= |input| && buff.Length >= 256 && env.writable
    modifies buff
    ensures t == Request(input, pos, env)
  {
    var sent := [MethodReply()];
    var ok: bool;
    var next: nat;
    ok, next := Recv(input, pos, buff, 4);
    if !ok {
      return ErrExit(sent, next, None, None, None);
    }
    assert buff[..4] == input[pos..pos + 4];
    ghost var atyp := input[pos + 3];
    assert buff[3] == atyp;
    if buff[0] != VERSION || buff[1] != CMD_CONNECT {
      sent := Reject(sent, buff, REP_CMD_NOT_SUPPORTED, env.writable);
      return ErrExit(sent, next, None, None, None);
    }

    var d: Destination;
    if buff[3] == ATYP_IPV4 {
      d := RecvIpv4(input, next, buff);
    } else if buff[3] == ATYP_DOMAIN {
      d := RecvDomain(input, next, buff, env.resolve);
    } else {
      sent := Reject(sent, buff, REP_ADDR_NOT_SUPPORTED, env.writable);
      return ErrExit(sent, next, None, None, None);
    }
    if d.dest.None? {
      return ErrExit(sent, d.next, d.queried, None, None);
    }
    t := Connect(sent, d.next, d.queried, d.dest.value, buff, env);
  }

  /**
   * A rejected request header: VER, REP and RSV overwritten in the buffer,
   * the client's ATYP left in the fourth byte, and those four bytes sent.
   */
  method Reject(sent: seq<seq<byte>>, buff: array<byte>, rep: byte, writable: bool)
    returns (sent': seq<seq<byte>>)
    requires buff.Length >= 4
    modifies buff
    ensures sent' == if writable then sent + [ErrorReply(rep, old(buff[3]))] else sent
  {
    buff[0], buff[1], buff[2] := VERSION, rep, 0;
    assert buff[..4] == ErrorReply(rep, old(buff[3]));
    var ok;
    ok, sent' := Send(sent, writable, buff, 4);
  }

  /** The IPv4 branch: address and port copied out of the buffer as received. */
  method RecvIpv4(input: seq<byte>, pos: nat, buff: array<byte>) returns (d: Destination)
    requires pos <= |input| && buff.Length >= 256
    modifies buff
    ensures d == Ipv4Destination(input, pos)
  {
    var ok: bool;
    var next: nat;
    ok, next := Recv(input, pos, buff, 4);
    if !ok {
      return Destination(None, next, None);
    }
    var addr := buff[..4];
    ok, next := Recv(input, next, buff, 2);
    if !ok {
      return Destination(None, next, None);
    }
    d := Destination(Some(Endpoint(addr, buff[..2])), next, None);
  }

  /**
   * The DOMAINNAME length byte, a NUL written at that index, and the name
   * read in front of it: `name` is what the resolver is handed.
   */
  method RecvName(input: seq<byte>, pos: nat, buff: array<byte>) returns (ok: bool, next: nat, name: seq<byte>)
    requires pos <= |input| && buff.Length >= 256
    modifies buff
    ensures |input| < pos + 1 ==> !ok && next == pos
    ensures |input| >= pos + 1 ==>
              var q := pos + 1 + input[pos] as int;
              (ok <==> q <= |input|) && next == (if ok then q else pos + 1)
    ensures ok ==> name == CString(input[pos + 1..next])
  {
    name := [];
    ok, next := Recv(input, pos, buff, 1);
    if !ok {
      return;
    }
    var len := buff[0] as nat;
    buff[len] := 0;
    ok, next := Recv(input, next, buff, len);
    if !ok {
      return;
    }
    assert buff[len..][0] == 0;
    CStringTerminated(buff[..], len);
    assert buff[..][..len] == input[pos + 1..next];
    name := CString(buff[..]);
  }

  /**
   * The length byte as the source reads it, into an `int` from a buffer of
   * `char`, where `char` is signed: bytes 128 to 255 come out negative.
   */
  function SignedLength(b: byte): (n: int)
    ensures -128 <= n < 128
    ensures n >= 0 <==> b < 128
    ensures n % 256 == b as int
  {
    if b < 128 then b as int else b as int - 256
  }

  /**
   * A name of 128 bytes or more (200, say) announces itself with a length
   * byte the signed read turns into an index before the start of the
   * buffer: the terminator store lands outside it. The unsigned length
   * RecvName uses stays inside.
   */
  lemma SignedLengthEscapesBuffer(b: byte, bufferSize: nat)
    requires b >= 128 && bufferSize >= 256
    ensures SignedLength(b) == b as int - 256 < 0
    ensures !(0 <= SignedLength(b) < bufferSize)
    ensures 0 <= b as int < bufferSize
  {
  }

  /** The DOMAINNAME branch: the name, the lookup, then the port. */
  method RecvDomain(input: seq<byte>, pos: nat, buff: array<byte>, resolve: seq<byte> -> Resolution)
    returns (d: Destination)
    requires pos <= |input| && buff.Length >= 256
    modifies buff
    ensures d == DomainDestination(input, pos, resolve)
  {
    var ok: bool;
    var next: nat;
    var name: seq<byte>;
    ok, next, name := RecvName(input, pos, buff);
    if !ok {
      return Destination(None, next, None);
    }
    var host := resolve(name);
    if host.Unresolved? || host.family != AF_INET || host.addrs == [] {
      return Destination(None, next, Some(name));
    }
    var addr := host.addrs[0];
    ok, next := Recv(input, next, buff, 2);
    if !ok {
      return Destination(None, next, Some(name));
    }
    d := Destination(Some(Endpoint(addr, buff[..2])), next, Some(name));
  }

  /** Socket, connect, peer lookup and the final reply. */
  method Connect(sent: seq<seq<byte>>, consumed: nat, queried: Option<seq<byte>>, dest: Endpoint,
                 buff: array<byte>, env: Env) returns (t: Trace)
    requires buff.Length >= 256 && env.writable
    modifies buff
    ensures t == Dial(sent, consumed, queried, dest, env)
  {
    var ok: bool;
    var out := sent;
    var remote := env.socketFd;
    if remote < 0 {
      return ErrExit(out, consumed, queried, Some(remote), None);
    }
    var conn := env.connect(dest);
    if conn.Refused? {
      Put(buff, 0, [VERSION, REP_CONN_REFUSED, 0, ATYP_IPV4, 0, 0, 0, 0, 0, 0]);
      assert buff[..4] == ErrorReply(REP_CONN_REFUSED, ATYP_IPV4);
      ok, out := Send(out, env.writable, buff, 4);
      return ErrExit(out, consumed, queried, Some(remote), Some(dest));
    }
    if conn.peer.None? {
      return ErrExit(out, consumed, queried, Some(remote), Some(dest));
    }
    var peer := conn.peer.value;
    Put(buff, 0, [VERSION, REP_SUCCEEDED, 0, ATYP_IPV4]);
    Put(buff, 4, peer.addr);
    Put(buff, 8, peer.port);
    assert buff[..10] == buff[..4] + buff[4..8] + buff[8..10] == SuccessReply(peer);
    ok, out := Send(out, env.writable, buff, 10);
    t := Trace(out, consumed, queried, Some(remote), Some(dest), [], Upstream(remote));
  }

  /* ---------------------------------------------------------------------- */
  /* Properties of the handshake                                            */
  /* ---------------------------------------------------------------------- */

  /** A method header with a version other than 5 is dropped without a reply. */
  lemma WrongVersionSilent(input: seq<byte>, env: Env)
    requires |input| >= 2 && input[0] != VERSION
    ensures Negotiate(input, env) == Trace([], 2, None, None, None, [], Failed)
  {
  }

  /**
   * With version 5, exactly the `nmethods` bytes after the header are taken
   * and the request is parsed right after them; the reply is [5, 0]
   * whatever was offered, even a list without method 0.
   */
  lemma MethodNegotiation(input: seq<byte>, env: Env)
    requires |input| >= 2 && input[0] == VERSION
    requires |input| >= 2 + input[1] as int && env.writable
    ensures Negotiate(input, env) == Request(input, 2 + input[1] as int, env)
    ensures Negotiate(input, env).replies[0] == [VERSION, METHOD_NO_AUTH]
  {
  }

  /** Two streams that agree on [i, j) give the same slice there. */
  lemma SliceAgrees(a: seq<byte>, b: seq<byte>, i: nat, j: nat)
    requires i <= j <= |a| == |b|
    requires forall k :: i <= k < j ==> a[k] == b[k]
    ensures a[i..j] == b[i..j]
  {
    assert forall k :: 0 <= k < j - i ==> a[i..j][k] == a[i + k] && b[i..j][k] == b[i + k];
  }

  /** The IPv4 branch reads only bytes from its offset on. */
  lemma Ipv4ReadsSuffix(a: seq<byte>, b: seq<byte>, r: nat)
    requires r <= |a| == |b|
    requires forall i :: r <= i < |a| ==> a[i] == b[i]
    ensures Ipv4Destination(a, r) == Ipv4Destination(b, r)
  {
    if |a| >= r + 6 {
      SliceAgrees(a, b, r, r + 4);
      SliceAgrees(a, b, r + 4, r + 6);
    }
  }

  /** The DOMAINNAME branch reads only bytes from its offset on. */
  lemma DomainReadsSuffix(a: seq<byte>, b: seq<byte>, r: nat, resolve: seq<byte> -> Resolution)
    requires r <= |a| == |b|
    requires forall i :: r <= i < |a| ==> a[i] == b[i]
    ensures DomainDestination(a, r, resolve) == DomainDestination(b, r, resolve)
  {
    if |a| >= r + 1 {
      var q := r + 1 + a[r] as int;
      if q <= |a| {
        SliceAgrees(a, b, r + 1, q);
      }
      if q + 2 <= |a| {
        SliceAgrees(a, b, q, q + 2);
      }
    }
  }

  /** The request stage reads only bytes from its offset on. */
  lemma RequestReadsSuffix(a: seq<byte>, b: seq<byte>, p: nat, env: Env)
    requires p <= |a| == |b|
    requires forall i :: p <= i < |a| ==> a[i] == b[i]
    ensures Request(a, p, env) == Request(b, p, env)
  {
    if |a| >= p + 4 {
      Ipv4ReadsSuffix(a, b, p + 4);
      DomainReadsSuffix(a, b, p + 4, env.resolve);
    }
  }

  /** The offered methods are never inspected: changing them changes nothing. */
  lemma MethodsNotInspected(a: seq<byte>, b: seq<byte>, env: Env)
    requires |a| == |b| >= 2 && a[0] == b[0] && a[1] == b[1]
    requires forall i :: 2 + a[1] as int <= i < |a| ==> a[i] == b[i]
    ensures Negotiate(a, env) == Negotiate(b, env)
  {
    var p := 2 + a[1] as int;
    if a[0] == VERSION && p <= |a| && env.writable {
      RequestReadsSuffix(a, b, p, env);
      assert Negotiate(a, env) == Request(a, p, env);
      assert Negotiate(b, env) == Request(b, p, env);
    }
  }

  /**
   * A request header whose version is not 5 or whose command is not CONNECT
   * is answered [5, 7, 0, ATYP-as-received] and no socket is created.
   */
  lemma UnsupportedCommand(input: seq<byte>, env: Env)
    requires |input| >= 2 && input[0] == VERSION && env.writable
    requires var p := 2 + input[1] as int;
      |input| >= p + 4 && (input[p] != VERSION || input[p + 1] != CMD_CONNECT)
    ensures var p := 2 + input[1] as int;
      Negotiate(input, env) ==
        Trace([[5, 0], [5, 7, 0, input[p + 3]]], p + 4, None, None, None, [], Failed)
  {
  }

  /**
   * A CONNECT request with an address type other than IPv4 or DOMAINNAME is
   * answered [5, 8, 0, ATYP-as-received] and no socket is created.
   */
  lemma UnsupportedAddressType(input: seq<byte>, env: Env)
    requires |input| >= 2 && input[0] == VERSION && env.writable
    requires var p := 2 + input[1] as int;
      && |input| >= p + 4 && input[p] == VERSION && input[p + 1] == CMD_CONNECT
      && input[p + 3] != ATYP_IPV4 && input[p + 3] != ATYP_DOMAIN
    ensures var p := 2 + input[1] as int;
      Negotiate(input, env) ==
        Trace([[5, 0], [5, 8, 0, input[p + 3]]], p + 4, None, None, None, [], Failed)
  {
  }

  /** IPv4: the destination is the next four bytes and the two after them, verbatim. */
  lemma Ipv4Request(input: seq<byte>, p: nat, env: Env)
    requires p + 10 <= |input|
    requires input[p] == VERSION && input[p + 1] == CMD_CONNECT && input[p + 3] == ATYP_IPV4
    ensures Request(input, p, env) ==
      Dial([MethodReply()], p + 10, None, Endpoint(input[p + 4..p + 8], input[p + 8..p + 10]), env)
  {
  }

  /**
   * DOMAINNAME: the L name bytes after the length byte go to the resolver
   * (whole, when none of them is NUL), the first IPv4 address of the answer
   * and the two following port bytes form the destination.
   */
  lemma DomainRequest(input: seq<byte>, p: nat, env: Env, addrs: seq<Addr>)
    requires p + 5 <= |input|
    requires input[p] == VERSION && input[p + 1] == CMD_CONNECT && input[p + 3] == ATYP_DOMAIN
    requires var q := p + 5 + input[p + 4] as int;
      && q + 2 <= |input| && 0 !in input[p + 5..q]
      && env.resolve(input[p + 5..q]) == Resolved(AF_INET, addrs) && addrs != []
    ensures var q := p + 5 + input[p + 4] as int;
      Request(input, p, env) ==
        Dial([MethodReply()], q + 2, Some(input[p + 5..q]), Endpoint(addrs[0], input[q..q + 2]), env)
  {
    CStringWhole(input[p + 5..p + 5 + input[p + 4] as int]);
  }

  /**
   * DOMAINNAME with a failed lookup, a non-IPv4 answer or an empty address
   * list: no reply beyond the method reply, no socket, the port unread.
   */
  lemma DomainUnresolved(input: seq<byte>, p: nat, env: Env)
    requires p + 5 <= |input|
    requires input[p] == VERSION && input[p + 1] == CMD_CONNECT && input[p + 3] == ATYP_DOMAIN
    requires var q := p + 5 + input[p + 4] as int;
      && q <= |input|
      && var r := env.resolve(CString(input[p + 5..q]));
         r.Unresolved? || r.family != AF_INET || r.addrs == []
    ensures var q := p + 5 + input[p + 4] as int;
      Request(input, p, env) ==
        Trace([MethodReply()], q, Some(CString(input[p + 5..q])), None, None, [], Failed)
  {
  }

  /** A failed `socket` is followed by `close` of its -1-style return value; nothing is sent. */
  lemma SocketFailure(sent: seq<seq<byte>>, consumed: nat, queried: Option<seq<byte>>, dest: Endpoint, env: Env)
    requires env.socketFd < 0
    ensures Dial(sent, consumed, queried, dest, env) ==
      Trace(sent, consumed, queried, Some(env.socketFd), None, [env.socketFd], Failed)
  {
  }

  /**
   * A refused connect is answered [5, 5, 0, 1] (connection refused, four
   * bytes only) and the upstream descriptor is closed once.
   */
  lemma ConnectRefused(sent: seq<seq<byte>>, consumed: nat, queried: Option<seq<byte>>, dest: Endpoint, env: Env)
    requires env.socketFd > 0 && env.connect(dest) == Refused
    ensures Dial(sent, consumed, queried, dest, env) ==
      Trace(sent + [[5, 5, 0, 1]], consumed, queried, Some(env.socketFd), Some(dest), [env.socketFd], Failed)
  {
  }

  /** A connected socket whose peer cannot be read is closed once, with no reply. */
  lemma PeerUnknown(sent: seq<seq<byte>>, consumed: nat, queried: Option<seq<byte>>, dest: Endpoint, env: Env)
    requires env.socketFd > 0 && env.connect(dest) == Connected(None)
    ensures Dial(sent, consumed, queried, dest, env) ==
      Trace(sent, consumed, queried, Some(env.socketFd), Some(dest), [env.socketFd], Failed)
  {
  }

  /**
   * The error label closes `remote` only when it is nonzero: an upstream
   * socket that got descriptor 0 is left open on every error path.
   */
  lemma DescriptorZeroKeptOpen(input: seq<byte>, env: Env)
    requires env.socketFd == 0
    ensures var t := Negotiate(input, env);
      t.closed == [] && (t.created.Some? ==> 0 in Opened(t) && 0 !in Closed(t))
  {
  }

  /**
   * Success: ten bytes [5, 0, 0, 1] ++ peer address ++ peer port are sent,
   * nothing is closed and the upstream descriptor is returned.
   */
  lemma ConnectSucceeded(sent: seq<seq<byte>>, consumed: nat, queried: Option<seq<byte>>,
                         dest: Endpoint, env: Env, peer: Endpoint)
    requires env.socketFd >= 0 && env.connect(dest) == Connected(Some(peer))
    ensures var t := Dial(sent, consumed, queried, dest, env);
      && t.replies == sent + [[5, 0, 0, 1] + peer.addr + peer.port]
      && t.closed == [] && t.outcome == Upstream(env.socketFd)
  {
  }

  /**
   * The whole exchange for a reachable IPv4 host: the client sends 05 01 00,
   * then 05 01 00 01, the address and the port; the server answers 05 00 and
   * then the ten-byte reply naming the upstream's peer, and hands over the
   * upstream descriptor. Bytes after the request stay unread.
   */
  lemma ConnectScenario(addr: Addr, port: Port, rest: seq<byte>, env: Env, peer: Endpoint)
    requires env.writable && env.socketFd >= 0
    requires env.connect(Endpoint(addr, port)) == Connected(Some(peer))
    ensures Negotiate([5, 1, 0] + [5, 1, 0, 1] + addr + port + rest, env) ==
      Trace([[5, 0], SuccessReply(peer)], 13, None, Some(env.socketFd),
            Some(Endpoint(addr, port)), [], Upstream(env.socketFd))
  {
    var input := [5, 1, 0] + [5, 1, 0, 1] + addr + port + rest;
    assert input[7..11] == addr && input[11..13] == port;
  }
}

=== FILE: relay.dfy ===
/**
 * The relay-pair lifecycle under the event reactor: `accept_cb` builds two
 * cross-linked read watchers (client side, upstream side) or leaves nothing
 * behind, and `read_cb` forwards what one side read to its partner or tears
 * the whole pair down.
 *
 * The reactor is reduced to the state these callbacks touch: the set of
 * started watchers, the set of open descriptors, the set of watcher records
 * that are allocated, and a log of `send` calls on the relay path.
 */
module Relay {
  import opened Wire
  import opened Handshake

  /** errno value for "connection reset by peer". */
  const ECONNRESET := 104

  /** A heap-allocated `ev_io` record: its descriptor and its `data` pointer. */
  class Watcher {
    var fd: int
    var data: Watcher?

    /** A freshly allocated record, not yet initialised by `ev_io_init`. */
    constructor ()
      ensures data == null
    {
      fd := -1;
      data := null;
    }
  }

  /** One `send(fd, bytes)` issued by the relay. */
  datatype SendCall = SendCall(fd: int, bytes: seq<byte>)

  /** What `recv` returned: some bytes (none at end of stream) or -1 with errno. */
  datatype Received = Bytes(payload: seq<byte>) | Failure(errno: int)

  /** The bytes the relay has sent to descriptor `fd`, in order. */
  function Delivered(log: seq<SendCall>, fd: int): (r: seq<byte>)
  {
    if log == [] then []
    else (if log[0].fd == fd then log[0].bytes else []) + Delivered(log[1..], fd)
  }

  /** One more send adds its bytes behind what `fd` already got, and only to `fd`. */
  lemma {:induction false} DeliveredAppend(log: seq<SendCall>, s: SendCall, fd: int)
    ensures Delivered(log + [s], fd) == Delivered(log, fd) + (if s.fd == fd then s.bytes else [])
  {
    if log != [] {
      assert (log + [s])[1..] == log[1..] + [s];
      DeliveredAppend(log[1..], s, fd);
    }
  }

  /** The events on which `read_cb` tears the pair down. */
  predicate TearsDown(evError: bool, got: Received)
  {
    !evError && (got == Bytes([]) || got == Failure(ECONNRESET))
  }

  /** The events on which `read_cb` forwards to the partner. */
  predicate Forwards(evError: bool, got: Received)
  {
    !evError && got.Bytes? && got.payload != []
  }

  /** Exactly one of: tear down, forward, or do nothing. */
  lemma ReadOutcomes(evError: bool, got: Received)
    ensures !(TearsDown(evError, got) && Forwards(evError, got))
    ensures !TearsDown(evError, got) && !Forwards(evError, got) <==>
              evError || (got.Failure? && got.errno != ECONNRESET)
  {
  }

  class Reactor {
    /** Watchers started with `ev_io_start` and not stopped since. */
    var active: set<Watcher>
    /** Descriptors open in the process. */
    var open: set<int>
    /** Watcher records returned by `malloc` and not yet freed. */
    var records: set<Watcher>
    /** Every `send` on the relay path, in order. */
    var sent: seq<SendCall>
    /** BUFFER_SIZE. */
    const bufferSize: nat

    /**
     * The reactor invariant: started pairs are linked both ways, each
     * started watcher owns an open descriptor, and no two started watchers
     * share one.
     */
    ghost predicate Valid()
      reads this`active, this`open, this`records, records
    {
      && bufferSize >= 256
      && active <= records
      && (forall fd :: fd in open ==> fd >= 0)
      && (forall w :: w in active ==>
            && w.fd in open
            && w.data != null && w.data != w && w.data in records
            && w.data.data == w)
      && (forall w {:trigger w.data in active} :: w in active ==> w.data in active)
      && (forall v, w :: v in active && w in active && v != w ==> v.fd != w.fd)
    }

    /**
     * No record leaks: between callbacks every allocated watcher record is a
     * started one. `accept_cb` and `read_cb` keep this, although allocation
     * and release inside `accept_cb` break it for a moment.
     */
    ghost predicate NoLeak()
      reads this`active, this`records
    {
      records == active
    }

    /** A reactor with no relay pair yet; `listening` are the descriptors already open. */
    constructor (bufferSize: nat, listening: set<int>)
      requires bufferSize >= 256
      requires forall fd :: fd in listening ==> fd >= 0
      ensures Valid() && NoLeak()
      ensures this.bufferSize == bufferSize && open == listening
      ensures active == {} && records == {} && sent == []
    {
      this.bufferSize := bufferSize;
      open := listening;
      active := {};
      records := {};
      sent := [];
    }

    /**
     * `accept_cb`. The caller supplies what the environment decides: whether
     * the event carries EV_ERROR, whether each `malloc` succeeds, what
     * `accept` returns, the accepted client's byte stream and the handshake's
     * environment. On success the two new watchers are returned.
     */
    method AcceptCb(evError: bool, clientAllocOk: bool, servAllocOk: bool, acceptFd: int,
                    input: seq<byte>, env: Env)
      returns (client: Watcher?, upstream: Watcher?)
      requires Valid() && NoLeak()
      requires acceptFd >= 0 ==> acceptFd !in open
      requires env.socketFd >= 0 ==> env.socketFd !in open && env.socketFd != acceptFd
      modifies this
      ensures Valid() && NoLeak()
      ensures sent == old(sent)
      ensures (client != null) == (upstream != null)
      ensures client != null <==>
                && !evError && clientAllocOk && servAllocOk && acceptFd >= 0
                && Negotiate(input, env).outcome.Upstream?
      // success: a fresh pair, linked both ways, on the client and upstream descriptors
      ensures client != null && upstream != null ==>
                && fresh(client) && fresh(upstream) && client != upstream
                && client.fd == acceptFd && upstream.fd == env.socketFd
                && client.data == upstream && upstream.data == client
                && active == old(active) + {client, upstream}
                && records == old(records) + {client, upstream}
                && open == old(open) + {acceptFd, env.socketFd}
      // failure: nothing registered, no record survives
      ensures client == null ==> active == old(active) && records == old(records)
      ensures evError || !clientAllocOk || !servAllocOk || acceptFd < 0 ==> open == old(open)
      // a failed handshake: the client descriptor is closed, upstream effects as in Negotiate
      ensures !evError && clientAllocOk && servAllocOk && acceptFd >= 0
              && Negotiate(input, env).outcome.Failed? ==>
                open == old(open) + Opened(Negotiate(input, env)) - Closed(Negotiate(input, env))
                && acceptFd !in open
    {
      client, upstream := null, null;
      if evError {
        return;
      }

      var wClient := Malloc(clientAllocOk);
      var wServ := Malloc(servAllocOk);
      if wClient == null || wServ == null {
        Free(wClient);
        Free(wServ);
        return;
      }

      client, upstream := Admit(wClient, wServ, acceptFd, input, env);
    }

    /**
     * The rest of `accept_cb` once both records are allocated: the accepted
     * descriptor is checked, the handshake runs, and the pair is either
     * registered or both records are freed again.
     */
    method Admit(wClient: Watcher, wServ: Watcher, clientFd: int, input: seq<byte>, env: Env)
      returns (client: Watcher?, upstream: Watcher?)
      requires Valid()
      requires wClient != wServ && wClient !in active && wServ !in active
      requires records == active + {wClient, wServ}
      requires clientFd >= 0 ==> clientFd !in open
      requires env.socketFd >= 0 ==> env.socketFd !in open && env.socketFd != clientFd
      modifies this, wClient, wServ
      ensures Valid() && NoLeak()
      ensures sent == old(sent)
      ensures (client != null) == (upstream != null)
      ensures client != null <==> clientFd >= 0 && Negotiate(input, env).outcome.Upstream?
      ensures client != null ==>
                && client == wClient && upstream == wServ
                && wClient.fd == clientFd && wServ.fd == env.socketFd
                && wClient.data == wServ && wServ.data == wClient
                && active == old(active) + {wClient, wServ}
                && open == old(open) + {clientFd, env.socketFd}
      ensures client == null ==> active == old(active)
      ensures clientFd < 0 ==> open == old(open)
      ensures clientFd >= 0 && Negotiate(input, env).outcome.Failed? ==>
                open == old(open) + Opened(Negotiate(input, env)) - Closed(Negotiate(input, env))
                && clientFd !in open
    {
      client, upstream := null, null;
      if clientFd < 0 {
        Free(wClient);
        Free(wServ);
        return;
      }

      var t := RunAuth(clientFd, input, env);
      if t.outcome.Failed? {
        open := open - {clientFd};
        Free(wClient);
        Free(wServ);
        return;
      }

      Register(wClient, wServ, clientFd, t.outcome.fd);
      client, upstream := wClient, wServ;
    }

    /** `malloc(sizeof(struct ev_io))`, which yields NULL unless `ok`. */
    method Malloc(ok: bool) returns (w: Watcher?)
      requires Valid()
      modifies this`records
      ensures Valid()
      ensures ok <==> w != null
      ensures w != null ==> fresh(w) && w !in old(records) && records == old(records) + {w}
      ensures w == null ==> records == old(records)
    {
      w := null;
      if ok {
        w := new Watcher();
        records := records + {w};
      }
    }

    /** `free(w)` of a record that is not started; nothing for NULL. */
    method Free(w: Watcher?)
      requires Valid() && w !in active
      requires w != null ==> w in records
      modifies this`records
      ensures Valid()
      ensures records == old(records) - {w}
    {
      if w != null {
        records := records - {w};
      }
    }

    /**
     * The accepted descriptor `clientFd` opens, `socks5_auth` runs on it,
     * and its upstream socket is opened and possibly closed again.
     */
    method RunAuth(clientFd: int, input: seq<byte>, env: Env) returns (t: Trace)
      requires Valid()
      requires clientFd >= 0 && clientFd !in open
      requires env.socketFd >= 0 ==> env.socketFd !in open && env.socketFd != clientFd
      modifies this`open
      ensures Valid()
      ensures t == Negotiate(input, env)
      ensures open == old(open) + {clientFd} + Opened(t) - Closed(t)
      ensures forall v :: v in active ==> v.fd != clientFd
      ensures t.outcome.Upstream? ==>
                && Opened(t) == {t.outcome.fd} && Closed(t) == {}
                && t.outcome.fd != clientFd
                && forall v :: v in active ==> v.fd != t.outcome.fd
    {
      t := Auth(input, env, bufferSize);
      assert forall v :: v in active ==> v.fd in open && v.fd != env.socketFd && v.fd != clientFd;
      open := open + {clientFd} + Opened(t) - Closed(t);
    }

    /**
     * `ev_io_init` and `ev_io_start` on both records, each one's `data`
     * pointing at the other.
     */
    method Register(wClient: Watcher, wServ: Watcher, clientFd: int, remoteFd: int)
      requires Valid()
      requires wClient in records && wServ in records && wClient != wServ
      requires wClient !in active && wServ !in active
      requires clientFd in open && remoteFd in open && clientFd != remoteFd
      requires forall v :: v in active ==> v.fd != clientFd && v.fd != remoteFd
      modifies this`active, wClient, wServ
      ensures Valid()
      ensures active == old(active) + {wClient, wServ}
      ensures wClient.fd == clientFd && wClient.data == wServ
      ensures wServ.fd == remoteFd && wServ.data == wClient
    {
      wClient.data := wServ;
      wClient.fd := clientFd;
      active := active + {wClient};

      wServ.data := wClient;
      wServ.fd := remoteFd;
      active := active + {wServ};
    }

    /**
     * `read_cb` for the started watcher `w`, given whether the event carries
     * EV_ERROR and what `recv` of up to BUFFER_SIZE bytes returned.
     */
    method ReadCb(w: Watcher, evError: bool, got: Received)
      requires Valid() && NoLeak() && w in active
      requires got.Bytes? ==> |got.payload| <= bufferSize
      modifies this
      ensures Valid() && NoLeak()
      ensures var p := old(w.data);
        TearsDown(evError, got) ==>
          && active == old(active) - {w, p}
          && open == old(open) - {w.fd, p.fd}
          && records == old(records) - {w, p}
          && sent == old(sent)
      ensures var p := old(w.data);
        Forwards(evError, got) ==>
          && sent == old(sent) + [SendCall(p.fd, got.payload)]
          && active == old(active) && open == old(open) && records == old(records)
      ensures !TearsDown(evError, got) && !Forwards(evError, got) ==>
          active == old(active) && open == old(open) && records == old(records) && sent == old(sent)
    {
      if evError {
        return;
      }
      var partner := w.data;
      if got.Failure? {
        if got.errno == ECONNRESET {
          Teardown(w, partner);
        }
        return;
      }
      if got.payload == [] {
        Teardown(w, partner);
      } else {
        Forward(partner, got.payload);
      }
    }

    /**
     * Stopping both watchers, closing both descriptors, freeing both
     * records. Neither watcher stays started, so no later event can reach
     * this pair again, and every other pair stays started, open and
     * allocated.
     */
    method Teardown(w: Watcher, partner: Watcher)
      requires Valid() && NoLeak() && w in active && w.data == partner
      modifies this
      ensures Valid() && NoLeak()
      ensures w !in active && partner !in active
      ensures active == old(active) - {w, partner}
      ensures open == old(open) - {w.fd, partner.fd}
      ensures records == old(records) - {w, partner}
      ensures sent == old(sent)
    {
      // every other pair is disjoint from this one, in watchers and in descriptors
      forall v | v in active && v != w && v != partner
        ensures v.fd != w.fd && v.fd != partner.fd && v.data != w && v.data != partner
      {
      }
      // ev_io_stop on both, close on both descriptors, free on both records
      active := active - {w, partner};
      open := open - {w.fd, partner.fd};
      records := records - {w, partner};
    }

    /** `send(partner->fd, buffer, read)`: one send of exactly the bytes read. */
    method Forward(partner: Watcher, data: seq<byte>)
      requires Valid()
      modifies this
      ensures Valid()
      ensures sent == old(sent) + [SendCall(partner.fd, data)]
      ensures active == old(active) && open == old(open) && records == old(records)
    {
      sent := sent + [SendCall(partner.fd, data)];
    }
  }

  /**
   * Forwarding fidelity: after `read_cb` forwards, the partner's descriptor
   * has received exactly the bytes read, appended in order, and no other
   * descriptor has received anything.
   */
  lemma ForwardingFidelity(before: seq<SendCall>, after: seq<SendCall>, partnerFd: int, data: seq<byte>)
    requires after == before + [SendCall(partnerFd, data)]
    ensures Delivered(after, partnerFd) == Delivered(before, partnerFd) + data
    ensures forall fd :: fd != partnerFd ==> Delivered(after, fd) == Delivered(before, fd)
  {
    forall fd {
      DeliveredAppend(before, SendCall(partnerFd, data), fd);
    }
  }
}

=== FILE: wire.dfy ===
/**
 * Wire layouts of the SOCKS5 handshake (RFC 1928) as this proxy speaks them:
 * the protocol constants, the fixed replies the server sends, and the view a
 * C string function has of a byte buffer.
 */
module Wire {

  newtype byte = b: int | 0 <= b < 256

  datatype Option<T> = None | Some(value: T)

  /** Protocol version, the only one accepted (section 3 of RFC 1928). */
  const VERSION: byte := 5
  /** Method "NO AUTHENTICATION REQUIRED". */
  const METHOD_NO_AUTH: byte := 0
  /** Command CONNECT, the only one accepted (section 4 of RFC 1928). */
  const CMD_CONNECT: byte := 1
  /** Address types (section 5 of RFC 1928). */
  const ATYP_IPV4: byte := 1
  const ATYP_DOMAIN: byte := 3
  /** Reply codes (section 6 of RFC 1928). */
  const REP_SUCCEEDED: byte := 0
  const REP_CONN_REFUSED: byte := 5
  const REP_CMD_NOT_SUPPORTED: byte := 7
  const REP_ADDR_NOT_SUPPORTED: byte := 8

  /** An IPv4 address and a port, both as raw bytes in network order. */
  type Addr = s: seq<byte> | |s| == 4 witness [0, 0, 0, 0]
  type Port = s: seq<byte> | |s| == 2 witness [0, 0]

  datatype Endpoint = Endpoint(addr: Addr, port: Port)

  /** The method-selection reply: version 5, method "no authentication". */
  function MethodReply(): (r: seq<byte>)
    ensures |r| == 2 && r[0] == VERSION && r[1] == METHOD_NO_AUTH
  {
    [VERSION, METHOD_NO_AUTH]
  }

  /**
   * The short error reply this server sends: VER, REP, RSV and the ATYP byte,
   * with no bound address or port after it.
   */
  function ErrorReply(rep: byte, atyp: byte): (r: seq<byte>)
    ensures |r| == 4 && r[0] == VERSION && r[1] == rep && r[2] == 0 && r[3] == atyp
  {
    [VERSION, rep, 0, atyp]
  }

  /** The 10-byte success reply carrying the upstream's peer address. */
  function SuccessReply(peer: Endpoint): (r: seq<byte>)
    ensures |r| == 10
    ensures r[..4] == [VERSION, REP_SUCCEEDED, 0, ATYP_IPV4]
    ensures r[4..8] == peer.addr && r[8..] == peer.port
  {
    [VERSION, REP_SUCCEEDED, 0, ATYP_IPV4] + peer.addr + peer.port
  }

  /**
   * What a C string function reads from `s`: the bytes before the first NUL,
   * or all of `s` when it holds none. The contract characterises the result
   * completely (see CStringUnique).
   */
  function CString(s: seq<byte>): (r: seq<byte>)
    ensures |r| <= |s| && r == s[..|r|]
    ensures 0 !in r
    ensures |r| < |s| ==> s[|r|] == 0
  {
    if s == [] || s[0] == 0 then [] else [s[0]] + CString(s[1..])
  }

  /** Any NUL-free prefix of `s` that ends at a NUL or at the end of `s` is CString(s). */
  lemma CStringUnique(s: seq<byte>, r: seq<byte>)
    requires |r| <= |s| && r == s[..|r|] && 0 !in r
    requires |r| < |s| ==> s[|r|] == 0
    ensures CString(s) == r
  {
  }

  /**
   * A buffer holding a NUL at index k reads, as a C string, the same as its
   * first k bytes: what a terminator written after the payload guarantees.
   */
  lemma CStringTerminated(s: seq<byte>, k: nat)
    requires k < |s| && s[k] == 0
    ensures CString(s) == CString(s[..k])
  {
    var c := CString(s[..k]);
    CStringUnique(s, c);
  }

  /** A name without NUL bytes reaches a C string function whole. */
  lemma CStringWhole(s: seq<byte>)
    requires 0 !in s
    ensures CString(s) == s
  {
    CStringUnique(s, s);
  }
}
